=== FILE: README.md ===
# Lucky-number calculator (feng shui numerology), modelled in Dafny

The application takes a person's full name, birth date and gender and produces a
"reading": a short list of lucky numbers, lucky colors, days and hours, a piece of feng
shui advice, and the person's element (Kim, Thủy, Mộc, Hỏa, Thổ), heavenly stem and
earthly branch. This project models the deterministic core of that computation,
`calculateLuckyNumbers` with its helpers, and the age computation of the entry form, as
pure Dafny functions, and proves what they guarantee.

Modules, one per concern:

- `Wrappers`: `Option`, standing for JavaScript's `undefined`.
- `JsNumber`: JavaScript's truncating `%` (`JsRem`) and the `x || d` default on numbers.
- `Sequences`: `Array.from(new Set(xs))` as `Dedup`, with its properties.
- `Types`: the request and result records of `types/index.ts`.
- `Numerology`: the name number (lowercase, filter, letter table, sum, digit reduction).
- `YearCycles`: element by final digit of the year, heavenly stem, earthly branch.
- `LuckyNumbers`: candidate list, deduplication, truncation to seven, clamp.
- `Descriptions`: the per-element tables and the three description sentences.
- `Calculator`: the full reading.
- `AgeForm`: `calculateAge` and `onFormSubmit`.

Places where the code does not do what its own comments or tables suggest; the model
follows the code:

- `generateLuckyNumbers` ends with the comment "Ensure numbers are between 1-99"
  (utils/feng-shui-calculator.ts:148), but the clamp after it only touches values above 99.
  The name filter deletes every character outside `[a-zăâđêôơư]`, including accented
  vowels such as á, ả, ý, so a name made only of such letters (for instance "Ý") has no
  surviving letter, its name number is 0, and 0 is the first lucky number. Likewise a
  negative birth year gives a negative age number (year -3 gives -3), because
  JavaScript's `%` keeps the sign of the dividend. The model proves the range the code
  gives for years from 0 on: 0..10, and 1..10 when the name number is not 0.
- The lucky-day lists for Thủy and Hỏa contain "Thứ 8" and "Thứ 9", which are not
  weekdays. The tables are modelled verbatim, and `Descriptions.DayLabelsOutsideWeek`
  states the discrepancy.
- JavaScript's `%` truncates toward zero, and the lookups are written with `JsRem`. The
  element table reads `undefined` (a `None`) for a negative year, except that a multiple
  of ten reads the entry for 0 because its remainder is -0. The stem and branch lookups
  read `undefined` whenever `year - 4` is negative, so for the years 0..3, except that a
  year with `year - 4` a multiple of 10 (or 12) reads the first entry: year -6 gives the
  stem Giáp, year -8 the branch Tý.

## Model

| member | source | states |
|---|---|---|
| Numerology.KeptHasValue | utils/feng-shui-calculator.ts:4-6 | a character is kept by the cleaning filter exactly when the letter table has an entry for it, and every entry is a digit 1..9 |
| Numerology.LetterValue | utils/feng-shui-calculator.ts:112 | a character's contribution is at most 9 and is 0 exactly when the filter would delete it |
| Numerology.Clean | utils/feng-shui-calculator.ts:108 | the cleaned name is no longer than its input and consists only of letters of the Vietnamese alphabet |
| Numerology.CleanKeepsLetters | utils/feng-shui-calculator.ts:108 | every letter of the Vietnamese alphabet occurs in the cleaned name exactly as often as in the input, so only other characters are dropped |
| Numerology.DigitFold | utils/feng-shui-calculator.ts:117 | one step of the reduction loop, for a total above 9, gives a smaller positive value with the same remainder modulo 9, so the loop terminates |
| Numerology.Reduce | utils/feng-shui-calculator.ts:115-120 | digit reduction ends in 0..9, keeps the total's remainder modulo 9, and gives 0 only for a total of 0 |
| Numerology.ReduceIsDigitalRoot | utils/feng-shui-calculator.ts:115-120 | the reduction loop equals the closed-form digital root: 0 for 0, otherwise 1 + (t - 1) mod 9 |
| Numerology.TotalBounds | utils/feng-shui-calculator.ts:109-113 | the letter total of a cleaned name lies between its length and nine times its length, so it is 0 exactly when no letter survives |
| Numerology.NameNumber | utils/feng-shui-calculator.ts:107-121 | the name number is the digital root of the letter total, in 0..9, and 0 exactly when the cleaned name is empty |
| Numerology.CalculateNameNumber | utils/feng-shui-calculator.ts:107-121 | the summing loop and the reduction loop together compute the digital root of the letter total, 0 exactly when no letter survives |
| Numerology.LowerChar | utils/feng-shui-calculator.ts:108 | lowercasing one character gives one or two characters, and leaves every letter the filter keeps unchanged |
| Numerology.LowerCharIdempotent | utils/feng-shui-calculator.ts:108 | lowercasing the lowercase of a character changes nothing |
| Numerology.Lower | utils/feng-shui-calculator.ts:108 | the lowercase of a name is at least as long as the name and at most twice as long, and a name made only of kept letters is its own lowercase |
| Numerology.Total | utils/feng-shui-calculator.ts:109-113 | the letter total of a string is at most nine per character |
| Numerology.TotalAppend | utils/feng-shui-calculator.ts:111-113 | the summing loop distributes over concatenation: the total of a + b is the total of a plus the total of b |
| Numerology.NameTotalAppend | utils/feng-shui-calculator.ts:108-113 | the letter total of a concatenation is the sum of the totals of the parts |
| Numerology.LowerIdempotent | utils/feng-shui-calculator.ts:108 | lowercasing an already lowercased name changes nothing |
| Numerology.CaseInsensitive | utils/feng-shui-calculator.ts:108 | a name and its lowercase have the same name number |
| Numerology.IgnoredCharacter | utils/feng-shui-calculator.ts:108 | inserting a character whose lowercase the filter deletes (digit, space, accented vowel) anywhere in a name leaves the name number unchanged |
| Numerology.SwapParts | utils/feng-shui-calculator.ts:111-113 | swapping two parts of a name (family name and given name) leaves the name number unchanged |
| JsNumber.JsRem | utils/feng-shui-calculator.ts:63 | the remainder satisfies a = b * trunc(a / b) + r with abs(r) < b and r carrying the sign of a |
| YearCycles.ElementOfYear | utils/feng-shui-calculator.ts:9-11 | the element lookup is defined exactly for non-negative years and negative multiples of ten, and whenever it is defined it follows the five-element cycle over pairs of final digits (a negative multiple of ten reads the entry for 0, Kim) |
| YearCycles.ElementByDigitPairs | utils/feng-shui-calculator.ts:9-11 | final digits {0,1}, {2,3}, {4,5}, {6,7}, {8,9} give Kim, Thủy, Mộc, Hỏa, Thổ, in both directions |
| YearCycles.ElementPeriodic | utils/feng-shui-calculator.ts:63-64 | from year 0 on, the element repeats every ten years |
| YearCycles.StemIndex | utils/feng-shui-calculator.ts:67 | from year 4 on, the stem index is (year - 4) mod 10, in 0..9 |
| YearCycles.BranchIndex | utils/feng-shui-calculator.ts:68 | from year 4 on, the branch index is (year - 4) mod 12, in 0..11 |
| YearCycles.StemOf | utils/feng-shui-calculator.ts:67-69 | the stem is defined exactly from year 4 on and for years whose index is -0 (year - 4 a negative multiple of 10), and is then the stem at index (year - 4) mod 10 |
| YearCycles.BranchOf | utils/feng-shui-calculator.ts:68-70 | the branch is defined exactly from year 4 on and for years whose index is -0 (year - 4 a negative multiple of 12), and is then the branch at index (year - 4) mod 12 |
| YearCycles.BelowFourIncomplete | utils/feng-shui-calculator.ts:63-70 | for every year below 4, negative years included, at least one of element, stem and branch reads `undefined` |
| YearCycles.StemPeriodic | utils/feng-shui-calculator.ts:67-69 | from year 4 on, years Y and Y + 10 have the same stem index and stem |
| YearCycles.BranchPeriodic | utils/feng-shui-calculator.ts:68-70 | from year 4 on, years Y and Y + 12 have the same branch index and branch |
| YearCycles.StemBranchParity | utils/feng-shui-calculator.ts:67-68 | for every year, negative stem and branch indices included, the two indices have the same parity, so only 60 stem-branch pairs occur |
| YearCycles.SexagenaryPeriod | utils/feng-shui-calculator.ts:67-70 | from year 4 on, the stem-branch pair repeats every sixty years |
| YearCycles.ElementIsStemElement | utils/feng-shui-calculator.ts:9-14 | from year 4 on, the element from the final-digit table is the traditional element of the year's heavenly stem |
| YearCycles.YearLookupsRepeat | utils/feng-shui-calculator.ts:63-70 | from year 4 on, element, stem and branch all repeat after 300 years |
| YearCycles.Anchors | utils/feng-shui-calculator.ts:14-17 | 1984 is Giáp Tý; 1990 is a Kim year with stem Canh and branch Ngọ |
| LuckyNumbers.ElementNumbers | utils/feng-shui-calculator.ts:152-162 | each element contributes four distinct digits, an unknown element five, all in 1..9 |
| LuckyNumbers.GenderNumbers | utils/feng-shui-calculator.ts:135-139 | the gender block is five distinct numbers in 1..10, odd exactly for men |
| LuckyNumbers.SecondNumber | utils/feng-shui-calculator.ts:128 | for non-negative inputs the second number is the value in 1..10 congruent to name number plus year modulo 10 |
| LuckyNumbers.AgeNumber | utils/feng-shui-calculator.ts:142 | for non-negative years the age number is the value in 1..9 congruent to the year's last two digits modulo 9 |
| LuckyNumbers.Candidates | utils/feng-shui-calculator.ts:124-143 | the candidate list starts with the name number, contains the whole gender block, and apart from its first entry lies in -9..10 |
| LuckyNumbers.Clamp | utils/feng-shui-calculator.ts:149 | the clamp leaves values up to 99 alone and maps larger ones into 1..99 keeping their remainder modulo 99 |
| LuckyNumbers.Finish | utils/feng-shui-calculator.ts:145-149 | the result has min(distinct candidates, 7) entries, all at most 99, starts with the clamped first candidate, and without oversized candidates is a duplicate-free prefix of the deduplicated candidates |
| LuckyNumbers.GenerateLuckyNumbers | utils/feng-shui-calculator.ts:123-150 | the list has as many entries as the deduplicated candidate list, cut at 7 (so 5 to 7), all at most 99; it starts with the clamped name number and, for a name number up to 99, is a duplicate-free prefix of the deduplicated candidate list |
| LuckyNumbers.LuckyNumbersRange | utils/feng-shui-calculator.ts:124-149 | for a digit name number and a non-negative year every lucky number is in 0..10, and in 1..10 when the name number is not 0 |
| LuckyNumbers.LuckyNumbersByLastTwoDigits | utils/feng-shui-calculator.ts:128-142 | two non-negative years with the same last two digits give the same lucky numbers |
| Sequences.Dedup | utils/feng-shui-calculator.ts:146 | deduplication yields a duplicate-free list with exactly the input's values, no longer than the input, starting with the input's first value |
| Sequences.DedupSnoc | utils/feng-shui-calculator.ts:146 | appending a value keeps it exactly when it has not been seen |
| Sequences.DedupOfNoDup | utils/feng-shui-calculator.ts:146 | a duplicate-free list is left unchanged |
| Sequences.DedupIdempotent | utils/feng-shui-calculator.ts:146 | deduplicating twice is deduplicating once |
| Sequences.DedupPrefix | utils/feng-shui-calculator.ts:146 | the deduplication of a prefix is a prefix of the deduplication, so later values never displace earlier ones |
| Sequences.NoDupCard | utils/feng-shui-calculator.ts:146 | a duplicate-free list has as many entries as distinct values |
| Sequences.DedupCoversSet | utils/feng-shui-calculator.ts:135-146 | the deduplicated list is at least as long as any set of values the input contains (hence at least 5 thanks to the gender block) |
| Descriptions.ElementTablesComplete | utils/feng-shui-calculator.ts:20-53 | every element name is a key of the color, day, hour, advice and element-description tables |
| Descriptions.StemTableComplete | utils/feng-shui-calculator.ts:176-191 | every heavenly stem of the stem list is a key of the stem-description table |
| Descriptions.BranchTableComplete | utils/feng-shui-calculator.ts:193-210 | every earthly branch of the branch list is a key of the branch-description table |
| Descriptions.DayLabelsOutsideWeek | utils/feng-shui-calculator.ts:29-35 | the Thủy and Hỏa day lists name days that are not weekdays, while Kim, Mộc and Thổ list only weekdays |
| Descriptions.LuckyColors | utils/feng-shui-calculator.ts:76 | for an element read from the year table the colors are that element's own entry (the table has every element, so the fallback is never taken); only an `undefined` element gets Đỏ, Vàng, Xanh |
| Descriptions.LuckyDays | utils/feng-shui-calculator.ts:77 | for an element the days are its own entry, never the fallback; only an `undefined` element gets Thứ 2, Thứ 6 |
| Descriptions.LuckyHours | utils/feng-shui-calculator.ts:78 | for an element the hours are its own entry, never the fallback; only an `undefined` element gets 9h-11h, 15h-17h |
| Descriptions.Advice | utils/feng-shui-calculator.ts:81 | for an element the advice is its own entry, never the fallback; only an `undefined` element gets the general advice sentence |
| Descriptions.DescribeElement | utils/feng-shui-calculator.ts:164-174 | every element has its own description, so "đặc biệt và độc đáo" is given only for an `undefined` element |
| Descriptions.DescribeStem | utils/feng-shui-calculator.ts:176-191 | every stem of the stem list gets its own description, never the fallback; `undefined` or an unknown name gets "những đặc điểm tích cực" |
| Descriptions.DescribeBranch | utils/feng-shui-calculator.ts:193-210 | every branch of the branch list gets its own description, never the fallback; `undefined` or an unknown name gets "những phẩm chất đặc biệt" |
| Descriptions.ElementSentence | utils/feng-shui-calculator.ts:93 | for an element the sentence names it and quotes its own description; for an `undefined` element it prints the word "undefined" and the fallback description |
| Descriptions.StemSentence | utils/feng-shui-calculator.ts:97 | for every stem of the stem list the sentence names it and quotes its own description; for an `undefined` stem it prints "undefined" and the fallback |
| Descriptions.BranchSentence | utils/feng-shui-calculator.ts:101 | for every branch of the branch list the sentence names it and quotes its own description; for an `undefined` branch it prints "undefined" and the fallback |
| Calculator.Reading | utils/feng-shui-calculator.ts:83-104 | the result record stores the element's own colors, days, hours and advice from the tables (no fallback for a known element), and the element name, stem and branch it was given |
| Calculator.CalculateLuckyNumbers | utils/feng-shui-calculator.ts:55-105 | the result echoes the request, id and timestamp; its element follows the final-digit cycle and its colors, days, hours and advice are that element's entries; stem and branch are indexed by (year - 4) mod 10 and mod 12, and the three description sentences are the ones built from that element, stem and branch; its lucky numbers are `generateLuckyNumbers` of the name number, the year, the gender and the year's element, so 5 to 7 distinct values that start with the name number and lie in 0..10 (1..10 for a non-zero name number) |
| Calculator.OnlyNameNumberMatters | utils/feng-shui-calculator.ts:59-73 | two names with the same name number give the same reading apart from the echoed request |
| AgeForm.CalculateAge | components/lucky-number-form.tsx:26-38 | an empty birth date gives 0; otherwise the age is the year difference or one less, and the full difference exactly when today's (month, day) is on or after the birthday's |
| AgeForm.AgeCountsBirthdays | components/lucky-number-form.tsx:30-35 | the age is the number of birthdays that have come: the age-th anniversary is on or before today and the next one is not |
| AgeForm.BirthdayCounts | components/lucky-number-form.tsx:33 | on the birthday itself there is no decrement |
| AgeForm.AgeNegativeIffFutureBirth | components/lucky-number-form.tsx:30-35 | the age is negative exactly when the birth date lies after today |
| AgeForm.OnFormSubmit | components/lucky-number-form.tsx:40-43 | submission sets the age to the computed age and leaves every other request field unchanged |
| AgeForm.SubmitIgnoresStaleAge | components/lucky-number-form.tsx:40-43 | the age the form held does not matter, and submitting twice equals submitting once |

## Left out

- Date parsing and the clock. The birth year (`new Date(birthDate).getFullYear()`), the
  parsed birth date, today's date, the result `id` (`Date.now()`) and `createdAt` are
  inputs. The form's date field (components/lucky-number-form.tsx:90) yields a
  "YYYY-MM-DD" string, which `new Date` parses as midnight UTC, while `getFullYear`,
  `getMonth` and `getDate` read it back in local time. In every time zone west of UTC
  the date read back is therefore one day before the date entered, for every date: the
  month shifts as well on the 1st, and the year on January 1, and `calculateAge` counts
  the birthday one day early. Time zones are not modelled: `AgeForm.CalculateAge`,
  `AgeForm.AgeCountsBirthdays` and the birth year given to
  `Calculator.CalculateLuckyNumbers` describe the date as read back, not the date as
  typed.
- Malformed dates. JavaScript yields `NaN` and then `undefined` lookups; the model instead
  asks for a well-formed date (`Types.ValidDate`) in `AgeForm`.
- Calculator.CalculateLuckyNumbers: requires a birth year of at least 4. Below year 4,
  negative years included, at least one of element, stem and branch reads `undefined`
  (`YearCycles.BelowFourIncomplete`), and the source stores it in a field typed as a
  string; for years 0..3 it is the stem and the branch, whose indices are negative. The
  individual lookups (`YearCycles.StemOf`, `YearCycles.BranchOf`,
  `YearCycles.ElementOfYear`, `LuckyNumbers.GenerateLuckyNumbers`) are modelled for
  every integer year.
- Unicode `toLowerCase` in general. `Numerology.LowerChar` is exact on every character
  whose lowercase contains a letter the filter keeps (A-Z, the seven Vietnamese capitals,
  KELVIN SIGN, LATIN CAPITAL LETTER I WITH DOT ABOVE) and leaves every other character
  unchanged; the filter deletes the real lowercase of those characters anyway, so name
  numbers are unaffected.
- The HTTP route (`app/api/calculate/route.ts`): JSON parsing, the presence check of
  name, birth date and gender, and the error responses are request plumbing.
- The `onSubmit` callback that sends the request on, and all rendering, animation,
  theming, clipboard and sharing code.
- The description sentences are modelled as verbatim string concatenation; nothing is
  proved about their wording.

=== FILE: age_form.dfy ===
/** `calculateAge` and `onFormSubmit` of the entry form. */
module AgeForm {
  import opened Types

  /** (month, day) of `a` is on or after (month, day) of `b`, in lexicographic order. */
  predicate SameOrLaterInYear(a: Date, b: Date) {
    a.month > b.month || (a.month == b.month && a.day >= b.day)
  }

  /** `a` is on or before `b` as calendar dates (lexicographic on year, month, day). */
  predicate OnOrBefore(a: Date, b: Date) {
    a.year < b.year || (a.year == b.year && SameOrLaterInYear(b, a))
  }

  /** The `years`-th birthday of someone born on `birth`. */
  function Anniversary(birth: Date, years: int): Date {
    Date(birth.year + years, birth.month, birth.day)
  }

  /** `calculateAge`. `birth` is what `new Date(birthDate)` read back and `today` what
      `new Date()` read; an empty `birthDate` short-circuits to 0. */
  function CalculateAge(birthDate: string, birth: Date, today: Date): (age: int)
    requires birthDate != "" ==> ValidDate(birth)
    requires ValidDate(today)
    ensures birthDate == "" ==> age == 0
    ensures birthDate != "" ==>
      age == today.year - birth.year || age == today.year - birth.year - 1
    ensures birthDate != "" ==>
      (age == today.year - birth.year <==> SameOrLaterInYear(today, birth))
  {
    if birthDate == "" then 0
    else
      var age := today.year - birth.year;
      var monthDiff := today.month - birth.month;
      if monthDiff < 0 || (monthDiff == 0 && today.day < birth.day) then age - 1 else age
  }

  /** The age is the number of birthdays that have come by today: the `age`-th anniversary
      is on or before today and the next one is not. */
  lemma AgeCountsBirthdays(birthDate: string, birth: Date, today: Date)
    requires birthDate != "" && ValidDate(birth) && ValidDate(today)
    ensures OnOrBefore(Anniversary(birth, CalculateAge(birthDate, birth, today)), today)
    ensures !OnOrBefore(Anniversary(birth, CalculateAge(birthDate, birth, today) + 1), today)
  {
  }

  /** On the birthday itself the full year difference counts. */
  lemma BirthdayCounts(birthDate: string, birth: Date, today: Date)
    requires birthDate != "" && ValidDate(birth) && ValidDate(today)
    requires today.month == birth.month && today.day == birth.day
    ensures CalculateAge(birthDate, birth, today) == today.year - birth.year
  {
  }

  /** The age is negative exactly when the birth date lies after today. */
  lemma AgeNegativeIffFutureBirth(birthDate: string, birth: Date, today: Date)
    requires birthDate != "" && ValidDate(birth) && ValidDate(today)
    ensures CalculateAge(birthDate, birth, today) < 0 <==> !OnOrBefore(birth, today)
  {
  }

  /** `onFormSubmit`: the age field is overwritten with the computed age before the
      request is handed on. */
  function OnFormSubmit(data: LuckyNumberRequest, birth: Date, today: Date)
    : (r: LuckyNumberRequest)
    requires data.birthDate != "" ==> ValidDate(birth)
    requires ValidDate(today)
    ensures r.age == CalculateAge(data.birthDate, birth, today)
    ensures r.fullName == data.fullName && r.birthDate == data.birthDate
    ensures r.gender == data.gender
    ensures r.houseDirection == data.houseDirection && r.profession == data.profession
  {
    data.(age := CalculateAge(data.birthDate, birth, today))
  }

  /** Whatever age the form held is discarded, and submitting twice is submitting once. */
  lemma SubmitIgnoresStaleAge(data: LuckyNumberRequest, staleAge: int, birth: Date, today: Date)
    requires data.birthDate != "" ==> ValidDate(birth)
    requires ValidDate(today)
    ensures OnFormSubmit(data.(age := staleAge), birth, today) == OnFormSubmit(data, birth, today)
    ensures OnFormSubmit(OnFormSubmit(data, birth, today), birth, today)
         == OnFormSubmit(data, birth, today)
  {
  }
}

=== FILE: calculator.dfy ===
/** `calculateLuckyNumbers`: the full reading for one request. */
module Calculator {
  import opened Wrappers
  import opened Types
  import opened Sequences
  import opened Numerology
  import opened YearCycles
  import opened LuckyNumbers
  import opened Descriptions

  /** The element of a non-negative birth year, by the five-element cycle over pairs of
      final digits. */
  function YearElement(birthYear: int): Element
    requires birthYear >= 0
  {
    ElementCycle[(birthYear % 10) / 2]
  }

  /** `calculateLuckyNumbers`. The birth year is what `new Date(request.birthDate)
      .getFullYear()` returned, and `id` and `createdAt` are what `Date.now()` and
      `new Date()` returned; all three are inputs here. */
  function CalculateLuckyNumbers(request: LuckyNumberRequest, birthYear: int, id: string,
                                 createdAt: Timestamp): (r: LuckyNumberResult)
    requires birthYear >= 4
    ensures r.request == request && r.id == id && r.createdAt == createdAt
    ensures r.userId == None
    ensures r.fiveElements.element == ElementName(YearElement(birthYear))
    ensures r.luckyColors == LuckyColors(Some(YearElement(birthYear)))
    ensures r.luckyDays == LuckyDays(Some(YearElement(birthYear)))
    ensures r.luckyHours == LuckyHours(Some(YearElement(birthYear)))
    ensures r.fengShuiAdvice == Advice(Some(YearElement(birthYear)))
    ensures r.heavenlyStems.stem == HeavenlyStems[(birthYear - 4) % 10]
    ensures r.earthlyBranches.branch == EarthlyBranches[(birthYear - 4) % 12]
    ensures r.luckyNumbers
         == GenerateLuckyNumbers(NameNumber(request.fullName), birthYear, request.gender,
                                 Some(YearElement(birthYear)))
    ensures r.fiveElements.description == ElementSentence(Some(YearElement(birthYear)))
    ensures r.heavenlyStems.description == StemSentence(Some(HeavenlyStems[(birthYear - 4) % 10]))
    ensures r.earthlyBranches.description
         == BranchSentence(Some(EarthlyBranches[(birthYear - 4) % 12]))
    ensures 5 <= |r.luckyNumbers| <= MaxLucky && NoDup(r.luckyNumbers)
    ensures r.luckyNumbers[0] == NameNumber(request.fullName)
    ensures forall v :: v in r.luckyNumbers ==> 0 <= v <= 10
    ensures NameNumber(request.fullName) != 0 ==> forall v :: v in r.luckyNumbers ==> 1 <= v <= 10
  {
    var nameNumber := NameNumber(request.fullName);
    var element := ElementOfYear(birthYear);
    var stem := StemOf(birthYear);
    var branch := BranchOf(birthYear);
    assert element == Some(YearElement(birthYear));
    assert stem == Some(HeavenlyStems[(birthYear - 4) % 10]);
    assert branch == Some(EarthlyBranches[(birthYear - 4) % 12]);
    var luckyNumbers := GenerateLuckyNumbers(nameNumber, birthYear, request.gender, element);
    LuckyNumbersRange(nameNumber, birthYear, request.gender, element);
    Reading(request, element, stem, branch, luckyNumbers, id, createdAt)
  }

  /** The result record built from the looked-up pieces. For a known element every list
      and the advice are that element's own table entries: no fallback is stored. */
  function Reading(request: LuckyNumberRequest, element: Option<Element>, stem: Option<string>,
                   branch: Option<string>, luckyNumbers: seq<int>, id: string,
                   createdAt: Timestamp): (r: LuckyNumberResult)
    requires element.Some? && stem.Some? && branch.Some?
    ensures r.luckyColors == LuckyColorsByElement[ElementName(element.value)]
    ensures r.luckyDays == LuckyDaysByElement[ElementName(element.value)]
    ensures r.luckyHours == LuckyHoursByElement[ElementName(element.value)]
    ensures r.fengShuiAdvice == AdviceByElement[ElementName(element.value)]
    ensures r.fiveElements.element == ElementName(element.value)
    ensures r.heavenlyStems.stem == stem.value && r.earthlyBranches.branch == branch.value
    ensures r.luckyColors == LuckyColors(element) && r.luckyDays == LuckyDays(element)
    ensures r.luckyHours == LuckyHours(element) && r.fengShuiAdvice == Advice(element)
    ensures r.fiveElements.description == ElementSentence(element)
    ensures r.heavenlyStems.description == StemSentence(stem)
    ensures r.earthlyBranches.description == BranchSentence(branch)
    ensures r.id == id && r.userId == None && r.request == request && r.createdAt == createdAt
    ensures r.luckyNumbers == luckyNumbers
  {
    LuckyNumberResult(
      id,
      None,
      request,
      luckyNumbers,
      LuckyDays(element),
      LuckyHours(element),
      LuckyColors(element),
      Advice(element),
      ElementInfo(ElementName(element.value), ElementSentence(element)),
      StemInfo(stem.value, StemSentence(stem)),
      BranchInfo(branch.value, BranchSentence(branch)),
      createdAt)
  }

  /** The reading for two requests that differ only in the name is the same whenever the
      two names have the same name number, apart from the echoed request. */
  lemma OnlyNameNumberMatters(request: LuckyNumberRequest, otherName: string,
                              birthYear: int, id: string, createdAt: Timestamp)
    requires birthYear >= 4
    requires NameNumber(otherName) == NameNumber(request.fullName)
    ensures CalculateLuckyNumbers(request.(fullName := otherName), birthYear, id, createdAt)
         == CalculateLuckyNumbers(request, birthYear, id, createdAt).(request := request.(fullName := otherName))
  {
  }
}

=== FILE: descriptions.dfy ===
/** The per-element tables (lucky colors, days, hours, advice) and the description
    sentences for element, heavenly stem and earthly branch. Keys are the names as strings,
    as in the program's tables; `None` stands for a lookup with an `undefined` key. */
module Descriptions {
  import opened Wrappers
  import opened YearCycles

  /** `luckyColorsByElement`. */
  const LuckyColorsByElement: map<string, seq<string>> := map[
    "Kim" := ["Trắng", "Bạc", "Xám"],
    "Mộc" := ["Xanh lá", "Xanh dương", "Nâu"],
    "Thủy" := ["Đen", "Xanh dương", "Xanh lá"],
    "Hỏa" := ["Đỏ", "Cam", "Hồng"],
    "Thổ" := ["Vàng", "Nâu", "Cam"]]

  /** `luckyDaysByElement`. */
  const LuckyDaysByElement: map<string, seq<string>> := map[
    "Kim" := ["Thứ 2", "Thứ 6"],
    "Mộc" := ["Thứ 3", "Thứ 7"],
    "Thủy" := ["Thứ 4", "Thứ 8"],
    "Hỏa" := ["Thứ 5", "Thứ 9"],
    "Thổ" := ["Thứ 2", "Thứ 6", "Chủ nhật"]]

  /** `luckyHoursByElement`. */
  const LuckyHoursByElement: map<string, seq<string>> := map[
    "Kim" := ["7h-9h", "15h-17h"],
    "Mộc" := ["5h-7h", "13h-15h"],
    "Thủy" := ["21h-23h", "3h-5h"],
    "Hỏa" := ["11h-13h", "19h-21h"],
    "Thổ" := ["9h-11h", "17h-19h"]]

  /** `fengShuiAdviceByElement`. */
  const AdviceByElement: map<string, string> := map[
    "Kim" := "Nên đặt vật phẩm kim loại ở hướng Tây, tránh hướng Nam để tăng vận may.",
    "Mộc" := "Trồng cây xanh ở hướng Đông, sử dụng màu xanh lá để thu hút tài lộc.",
    "Thủy" := "Đặt bể cá hoặc thác nước ở hướng Bắc, tránh hướng Nam để cân bằng âm dương.",
    "Hỏa" := "Sử dụng đèn đỏ hoặc vật phẩm màu đỏ ở hướng Nam để tăng năng lượng tích cực.",
    "Thổ" := "Đặt đá phong thủy hoặc gốm sứ ở trung tâm nhà để ổn định vận khí."]

  /** The temperament of each element (`getElementDescription`). */
  const ElementDescriptions: map<string, string> := map[
    "Kim" := "kiên định, mạnh mẽ, có khả năng lãnh đạo",
    "Mộc" := "sáng tạo, linh hoạt, thích khám phá",
    "Thủy" := "thông minh, nhạy cảm, có trực giác tốt",
    "Hỏa" := "nhiệt tình, năng động, có sức ảnh hưởng",
    "Thổ" := "ổn định, đáng tin cậy, có tinh thần trách nhiệm"]

  /** What each heavenly stem brings (`getStemDescription`). */
  const StemDescriptions: map<string, string> := map[
    "Giáp" := "sự khởi đầu và lãnh đạo",
    "Ất" := "sự phát triển và mềm mại",
    "Bính" := "năng lượng và sức mạnh",
    "Đinh" := "sự ổn định và kiên nhẫn",
    "Mậu" := "sự trung thành và đáng tin cậy",
    "Kỷ" := "sự thông minh và khéo léo",
    "Canh" := "sự quyết đoán và mạnh mẽ",
    "Tân" := "sự tinh tế và nhạy cảm",
    "Nhâm" := "sự sâu sắc và trí tuệ",
    "Quý" := "sự hoàn thiện và viên mãn"]

  /** What each earthly branch stands for (`getBranchDescription`). */
  const BranchDescriptions: map<string, string> := map[
    "Tý" := "sự thông minh và nhanh nhẹn",
    "Sửu" := "sự kiên nhẫn và chăm chỉ",
    "Dần" := "sự dũng cảm và lãnh đạo",
    "Mão" := "sự nhanh nhẹn và thông minh",
    "Thìn" := "sự mạnh mẽ và quyền lực",
    "Tỵ" := "sự khéo léo và thông minh",
    "Ngọ" := "sự năng động và nhiệt tình",
    "Mùi" := "sự hiền hòa và nhân từ",
    "Thân" := "sự thông minh và linh hoạt",
    "Dậu" := "sự chính xác và cẩn thận",
    "Tuất" := "sự trung thành và đáng tin",
    "Hợi" := "sự hào phóng và tốt bụng"]

  const FallbackColors: seq<string> := ["Đỏ", "Vàng", "Xanh"]
  const FallbackDays: seq<string> := ["Thứ 2", "Thứ 6"]
  const FallbackHours: seq<string> := ["9h-11h", "15h-17h"]
  const FallbackAdvice: string := "Hãy giữ tâm thái tích cực và tin tưởng vào vận may của mình."
  const FallbackElementDescription: string := "đặc biệt và độc đáo"
  const FallbackStemDescription: string := "những đặc điểm tích cực"
  const FallbackBranchDescription: string := "những phẩm chất đặc biệt"

  /** `table[key] || fallback`: the entry, or the fallback when the key is `undefined` or
      missing (every entry is a non-empty array or string, hence truthy). */
  function Lookup<V>(table: map<string, V>, key: Option<string>, fallback: V): (r: V)
    ensures key.Some? && key.value in table ==> r == table[key.value]
    ensures key.None? || key.value !in table ==> r == fallback
  {
    if key.Some? && key.value in table then table[key.value] else fallback
  }

  /** The key the calculator looks the per-element tables up with: the element read from
      the year table, so `undefined` or one of the five names. */
  function ElementKey(element: Option<Element>): Option<string> {
    if element.Some? then Some(ElementName(element.value)) else None
  }

  /** `luckyColorsByElement[element] || [...]`. Every element is a key of the table, so the
      fallback is taken only for an `undefined` element. */
  function LuckyColors(element: Option<Element>): (r: seq<string>)
    ensures element.Some? ==> ElementName(element.value) in LuckyColorsByElement
                              && r == LuckyColorsByElement[ElementName(element.value)]
    ensures element.None? ==> r == FallbackColors
  {
    Lookup(LuckyColorsByElement, ElementKey(element), FallbackColors)
  }

  /** `luckyDaysByElement[element] || [...]`; the fallback only for `undefined`. */
  function LuckyDays(element: Option<Element>): (r: seq<string>)
    ensures element.Some? ==> ElementName(element.value) in LuckyDaysByElement
                              && r == LuckyDaysByElement[ElementName(element.value)]
    ensures element.None? ==> r == FallbackDays
  {
    Lookup(LuckyDaysByElement, ElementKey(element), FallbackDays)
  }

  /** `luckyHoursByElement[element] || [...]`; the fallback only for `undefined`. */
  function LuckyHours(element: Option<Element>): (r: seq<string>)
    ensures element.Some? ==> ElementName(element.value) in LuckyHoursByElement
                              && r == LuckyHoursByElement[ElementName(element.value)]
    ensures element.None? ==> r == FallbackHours
  {
    Lookup(LuckyHoursByElement, ElementKey(element), FallbackHours)
  }

  /** `fengShuiAdviceByElement[element] || '...'`; the fallback only for `undefined`. */
  function Advice(element: Option<Element>): (r: string)
    ensures element.Some? ==> ElementName(element.value) in AdviceByElement
                              && r == AdviceByElement[ElementName(element.value)]
    ensures element.None? ==> r == FallbackAdvice
  {
    Lookup(AdviceByElement, ElementKey(element), FallbackAdvice)
  }

  /** How a template literal renders `${x}`: `undefined` prints as the word "undefined". */
  function Render(x: Option<string>): string {
    x.GetOr("undefined")
  }

  /** `getElementDescription`; the fallback only for `undefined`. */
  function DescribeElement(element: Option<Element>): (r: string)
    ensures element.Some? ==> ElementName(element.value) in ElementDescriptions
                              && r == ElementDescriptions[ElementName(element.value)]
    ensures element.None? ==> r == FallbackElementDescription
  {
    Lookup(ElementDescriptions, ElementKey(element), FallbackElementDescription)
  }

  /** `getStemDescription`. Every stem the year can give has its own description. */
  function DescribeStem(stem: Option<string>): (r: string)
    ensures stem.Some? && stem.value in HeavenlyStems
            ==> stem.value in StemDescriptions && r == StemDescriptions[stem.value]
    ensures stem.None? || stem.value !in StemDescriptions ==> r == FallbackStemDescription
  {
    Lookup(StemDescriptions, stem, FallbackStemDescription)
  }

  /** `getBranchDescription`. Every branch the year can give has its own description. */
  function DescribeBranch(branch: Option<string>): (r: string)
    ensures branch.Some? && branch.value in EarthlyBranches
            ==> branch.value in BranchDescriptions && r == BranchDescriptions[branch.value]
    ensures branch.None? || branch.value !in BranchDescriptions
            ==> r == FallbackBranchDescription
  {
    Lookup(BranchDescriptions, branch, FallbackBranchDescription)
  }

  /** The `fiveElements.description` sentence: for an element it quotes the element's own
      description; without one it prints "undefined" and the fallback description. */
  function ElementSentence(element: Option<Element>): (r: string)
    ensures element.Some?
            ==> ElementName(element.value) in ElementDescriptions
                && r == "Bạn thuộc hành " + ElementName(element.value) + ", có tính cách "
                        + ElementDescriptions[ElementName(element.value)]
    ensures element.None?
            ==> r == "Bạn thuộc hành " + "undefined" + ", có tính cách " + FallbackElementDescription
  {
    "Bạn thuộc hành " + Render(ElementKey(element)) + ", có tính cách " + DescribeElement(element)
  }

  /** The `heavenlyStems.description` sentence: for a stem it quotes the stem's own
      description. */
  function StemSentence(stem: Option<string>): (r: string)
    ensures stem.Some? && stem.value in HeavenlyStems
            ==> stem.value in StemDescriptions
                && r == "Thiên can " + stem.value + " mang lại " + StemDescriptions[stem.value]
    ensures stem.None? ==> r == "Thiên can " + "undefined" + " mang lại " + FallbackStemDescription
  {
    "Thiên can " + Render(stem) + " mang lại " + DescribeStem(stem)
  }

  /** The `earthlyBranches.description` sentence: for a branch it quotes the branch's own
      description. */
  function BranchSentence(branch: Option<string>): (r: string)
    ensures branch.Some? && branch.value in EarthlyBranches
            ==> branch.value in BranchDescriptions
                && r == "Địa chi " + branch.value + " tượng trưng cho "
                        + BranchDescriptions[branch.value]
    ensures branch.None?
            ==> r == "Địa chi " + "undefined" + " tượng trưng cho " + FallbackBranchDescription
  {
    "Địa chi " + Render(branch) + " tượng trưng cho " + DescribeBranch(branch)
  }

  /** Every element name is a key of every per-element table. */
  lemma ElementTablesComplete(e: Element)
    ensures ElementName(e) in LuckyColorsByElement && ElementName(e) in LuckyDaysByElement
    ensures ElementName(e) in LuckyHoursByElement && ElementName(e) in AdviceByElement
    ensures ElementName(e) in ElementDescriptions
  {
  }

  /** Every heavenly stem has a description. */
  lemma StemTableComplete(i: int)
    requires 0 <= i < |HeavenlyStems|
    ensures HeavenlyStems[i] in StemDescriptions
  {
  }

  /** Every earthly branch has a description. */
  lemma BranchTableComplete(i: int)
    requires 0 <= i < |EarthlyBranches|
    ensures EarthlyBranches[i] in BranchDescriptions
  {
  }

  /** The seven weekday labels in Vietnamese. */
  const WeekdayLabels: set<string> :=
    {"Thứ 2", "Thứ 3", "Thứ 4", "Thứ 5", "Thứ 6", "Thứ 7", "Chủ nhật"}

  /** The day lists of Thủy and Hỏa name a "Thứ 8" and a "Thứ 9", which are not days of the
      week; the other three elements list only real weekdays. */
  lemma DayLabelsOutsideWeek()
    ensures "Thứ 8" in LuckyDays(Some(Thuy)) && "Thứ 8" !in WeekdayLabels
    ensures "Thứ 9" in LuckyDays(Some(Hoa)) && "Thứ 9" !in WeekdayLabels
    ensures forall e :: e in {Kim, Moc, Tho} ==>
      forall d :: d in LuckyDays(Some(e)) ==> d in WeekdayLabels
  {
  }
}

=== FILE: js_number.dfy ===
/** The two pieces of JavaScript number semantics the calculator relies on. */
module JsNumber {

  /** The quotient of `a / b` truncated toward zero (`Math.trunc(a / b)`). */
  function JsQuot(a: int, b: int): int
    requires b > 0
  {
    if a >= 0 then a / b else -((-a) / b)
  }

  /** JavaScript's `a % b`: the remainder of division truncated toward zero, so it takes
      the sign of the dividend (unlike Dafny's Euclidean `%`). */
  function JsRem(a: int, b: int): (r: int)
    requires b > 0
    ensures a == b * JsQuot(a, b) + r
    ensures -b < r < b
    ensures a >= 0 ==> r >= 0
    ensures a <= 0 ==> r <= 0
  {
    if a >= 0 then a % b else -((-a) % b)
  }

  /** JavaScript's `x || d` on a number that is never NaN: zero is the only falsy value. */
  function OrDefault(x: int, d: int): (r: int)
    ensures x != 0 ==> r == x
    ensures x == 0 ==> r == d
  {
    if x == 0 then d else x
  }
}

=== FILE: lucky_numbers.dfy ===
/** `generateLuckyNumbers` and `getElementNumbers`: a fixed list of candidate numbers,
    deduplicated, cut to seven and clamped to two digits. */
module LuckyNumbers {
  import opened Wrappers
  import opened JsNumber
  import opened Sequences
  import opened Types
  import opened YearCycles

  /** The most numbers a result carries (`slice(0, 7)`). */
  const MaxLucky := 7

  /** `getElementNumbers`: four numbers per element, five for an unknown element. */
  function ElementNumbers(e: Option<Element>): (r: seq<int>)
    ensures NoDup(r)
    ensures forall i :: 0 <= i < |r| ==> 1 <= r[i] <= 9
    ensures e.Some? ==> |r| == 4
    ensures e.None? ==> |r| == 5
  {
    match e
    case Some(Kim) => [1, 6, 7, 8]
    case Some(Moc) => [3, 4, 8, 9]
    case Some(Thuy) => [1, 2, 6, 7]
    case Some(Hoa) => [2, 3, 7, 9]
    case Some(Tho) => [2, 5, 8, 9]
    case None => [1, 2, 3, 4, 5]
  }

  /** The gender block: the five odd digits for men, the even numbers 2..10 for women. */
  function GenderNumbers(g: Gender): (r: seq<int>)
    ensures |r| == 5 && NoDup(r)
    ensures forall i :: 0 <= i < |r| ==> 1 <= r[i] <= 10
    ensures forall i :: 0 <= i < |r| ==> (r[i] % 2 == 1 <==> g == Male)
  {
    if g == Male then [1, 3, 5, 7, 9] else [2, 4, 6, 8, 10]
  }

  /** `(nameNumber + birthYear % 10) % 10 || 10`: for non-negative inputs, the number in
      1..10 congruent to name number plus year modulo 10. */
  function SecondNumber(nameNumber: int, year: int): (r: int)
    ensures r != 0 && -10 < r <= 10
    ensures nameNumber >= 0 && year >= 0 ==> 1 <= r <= 10 && r % 10 == (nameNumber + year) % 10
  {
    OrDefault(JsRem(nameNumber + JsRem(year, 10), 10), 10)
  }

  /** `(birthYear % 100) % 9 || 9`: for non-negative years, the number in 1..9 congruent to
      the year's last two digits modulo 9. */
  function AgeNumber(year: int): (r: int)
    ensures r != 0 && -9 < r <= 9
    ensures year >= 0 ==> 1 <= r <= 9 && r % 9 == (year % 100) % 9
  {
    OrDefault(JsRem(JsRem(year, 100), 9), 9)
  }

  /** The list `numbers` before deduplication, in push order. */
  function Candidates(nameNumber: int, year: int, g: Gender, e: Option<Element>): (r: seq<int>)
    ensures |r| == 8 + |ElementNumbers(e)| && r[0] == nameNumber
    ensures forall v :: v in GenderNumbers(g) ==> v in r
    ensures forall i :: 1 <= i < |r| ==> -10 < r[i] <= 10
  {
    [nameNumber, SecondNumber(nameNumber, year)] + ElementNumbers(e) + GenderNumbers(g)
      + [AgeNumber(year)]
  }

  /** `num > 99 ? num % 99 || 99 : num`. */
  function Clamp(v: int): (r: int)
    ensures r <= 99
    ensures v <= 99 ==> r == v
    ensures v > 99 ==> 1 <= r && r % 99 == v % 99
  {
    if v > 99 then OrDefault(v % 99, 99) else v
  }

  /** The tail of `generateLuckyNumbers`: `Array.from(new Set(numbers)).slice(0, 7)`
      followed by the clamp. */
  function Finish(cands: seq<int>): (r: seq<int>)
    requires |cands| > 0
    ensures |r| == if |Dedup(cands)| < MaxLucky then |Dedup(cands)| else MaxLucky
    ensures forall i :: 0 <= i < |r| ==> r[i] <= 99
    ensures r[0] == Clamp(cands[0])
    ensures (forall i :: 0 <= i < |cands| ==> cands[i] <= 99) ==> r <= Dedup(cands) && NoDup(r)
  {
    var unique := Dedup(cands);
    var kept := if |unique| <= MaxLucky then unique else unique[..MaxLucky];
    assert (forall i :: 0 <= i < |cands| ==> cands[i] <= 99) ==>
           forall i :: 0 <= i < |kept| ==> kept[i] <= 99 by {
      forall i | 0 <= i < |kept|
        ensures kept[i] in cands
      {
        assert kept[i] in Elements(unique);
      }
    }
    seq(|kept|, i requires 0 <= i < |kept| => Clamp(kept[i]))
  }

  /** `generateLuckyNumbers`. */
  function GenerateLuckyNumbers(nameNumber: int, year: int, g: Gender, e: Option<Element>)
    : (r: seq<int>)
    ensures var unique := Dedup(Candidates(nameNumber, year, g, e));
            |r| == if |unique| < MaxLucky then |unique| else MaxLucky
    ensures 5 <= |r| <= MaxLucky
    ensures forall i :: 0 <= i < |r| ==> r[i] <= 99
    ensures r[0] == Clamp(nameNumber)
    ensures nameNumber <= 99 ==> r <= Dedup(Candidates(nameNumber, year, g, e)) && NoDup(r)
  {
    var cands := Candidates(nameNumber, year, g, e);
    NoDupCard(GenderNumbers(g));
    DedupCoversSet(cands, Elements(GenderNumbers(g)));
    Finish(cands)
  }

  /** The last decimal digit is the last digit of the last two digits. */
  lemma LastDigitOfLastTwo(year: int)
    requires year >= 0
    ensures year % 10 == (year % 100) % 10
  {
    var q, t := year / 100, year % 100;
    assert year == 100 * q + t;
    assert t == 10 * (t / 10) + t % 10;
    assert year == 10 * (10 * q + t / 10) + t % 10;
  }

  /** For non-negative years the lucky numbers depend on the year only through its last
      two digits, so they repeat every century. */
  lemma LuckyNumbersByLastTwoDigits(nameNumber: int, year: int, year': int, g: Gender,
                                    e: Option<Element>)
    requires year >= 0 && year' >= 0 && year % 100 == year' % 100
    ensures GenerateLuckyNumbers(nameNumber, year', g, e)
         == GenerateLuckyNumbers(nameNumber, year, g, e)
  {
    LastDigitOfLastTwo(year);
    LastDigitOfLastTwo(year');
    assert SecondNumber(nameNumber, year') == SecondNumber(nameNumber, year);
    assert AgeNumber(year') == AgeNumber(year);
    assert Candidates(nameNumber, year', g, e) == Candidates(nameNumber, year, g, e);
  }

  /** Every candidate lies in 0..10 when the name number is a digit and the year is not
      negative, so the clamp never fires; with a non-zero name number every value is 1..10. */
  lemma LuckyNumbersRange(nameNumber: int, year: int, g: Gender, e: Option<Element>)
    requires 0 <= nameNumber <= 9 && year >= 0
    ensures forall v :: v in GenerateLuckyNumbers(nameNumber, year, g, e) ==> 0 <= v <= 10
    ensures nameNumber >= 1 ==>
      forall v :: v in GenerateLuckyNumbers(nameNumber, year, g, e) ==> 1 <= v <= 10
  {
    var cands := Candidates(nameNumber, year, g, e);
    var r := GenerateLuckyNumbers(nameNumber, year, g, e);
    var unique := Dedup(cands);
    forall v | v in r
      ensures v in cands
    {
      assert v in unique;
      assert v in Elements(unique);
    }
  }
}

=== FILE: numerology.dfy ===
/** The numerology "name number": lowercase the full name, keep only the letters of the
    Vietnamese alphabet, add up their digit values and fold the total to one digit. */
module Numerology {

  /** The letter-to-digit table. */
  const LetterValues: map<char, nat> := map[
    'a' := 1, 'ă' := 1, 'â' := 1, 'b' := 2, 'c' := 3, 'd' := 4, 'đ' := 5, 'e' := 6,
    'ê' := 6, 'f' := 7, 'g' := 8, 'h' := 9, 'i' := 1, 'j' := 2, 'k' := 3, 'l' := 4,
    'm' := 5, 'n' := 6, 'o' := 7, 'ô' := 7, 'ơ' := 7, 'p' := 8, 'q' := 9, 'r' := 1,
    's' := 2, 't' := 3, 'u' := 4, 'ư' := 4, 'v' := 5, 'w' := 6, 'x' := 7, 'y' := 8,
    'z' := 9]

  /** The character class `[a-zăâđêôơư]`; the cleaning step deletes everything else. */
  predicate Kept(c: char) {
    || 'a' <= c <= 'z'
    || c == 'ă' || c == 'â' || c == 'đ' || c == 'ê' || c == 'ô' || c == 'ơ' || c == 'ư'
  }

  /** Every table entry is a digit 1..9 of a letter the filter keeps. */
  lemma TableEntriesKept(c: char)
    requires c in LetterValues
    ensures Kept(c) && 1 <= LetterValues[c] <= 9
  {
    match c
      case 'a' =>
      case 'ă' =>
      case 'â' =>
      case 'b' =>
      case 'c' =>
      case 'd' =>
      case 'đ' =>
      case 'e' =>
      case 'ê' =>
      case 'f' =>
      case 'g' =>
      case 'h' =>
      case 'i' =>
      case 'j' =>
      case 'k' =>
      case 'l' =>
      case 'm' =>
      case 'n' =>
      case 'o' =>
      case 'ô' =>
      case 'ơ' =>
      case 'p' =>
      case 'q' =>
      case 'r' =>
      case 's' =>
      case 't' =>
      case 'u' =>
      case 'ư' =>
      case 'v' =>
      case 'w' =>
      case 'x' =>
      case 'y' =>
      case 'z' =>
      case _ => assert false;
  }

  /** Every letter the filter keeps has a table entry. */
  lemma KeptInTable(c: char)
    requires Kept(c)
    ensures c in LetterValues
  {
    if 'a' <= c <= 'm' {
      assert c in "abcdefghijklm";
    } else if 'n' <= c <= 'z' {
      assert c in "nopqrstuvwxyz";
    }
  }

  /** The filter and the table cover the same letters, and every entry is a digit 1..9. */
  lemma KeptHasValue(c: char)
    ensures Kept(c) <==> c in LetterValues
    ensures c in LetterValues ==> 1 <= LetterValues[c] <= 9
  {
    if c in LetterValues {
      TableEntriesKept(c);
    }
    if Kept(c) {
      KeptInTable(c);
    }
  }

  /** `nameToNumber[char] || 0`: the table value, or 0 for a character without an entry. */
  function LetterValue(c: char): (v: nat)
    ensures v <= 9
    ensures v == 0 <==> !Kept(c)
  {
    KeptHasValue(c);
    if c in LetterValues then LetterValues[c] else 0
  }

  /** `toLowerCase` of one character. It is exact on every character whose lowercase
      contains a letter the filter keeps: A-Z, the seven Vietnamese capitals, KELVIN SIGN
      (lowercases to 'k') and LATIN CAPITAL LETTER I WITH DOT ABOVE (lowercases to 'i'
      followed by COMBINING DOT ABOVE). Any other character is returned as it is; its real
      lowercase is deleted by the filter just the same. */
  function LowerChar(c: char): (r: string)
    ensures 1 <= |r| <= 2
    ensures Kept(c) ==> r == [c]
  {
    if 'A' <= c <= 'Z' then [(c as int + 32) as char]
    else if c == 'Ă' then ['ă']
    else if c == 'Â' then ['â']
    else if c == 'Đ' then ['đ']
    else if c == 'Ê' then ['ê']
    else if c == 'Ô' then ['ô']
    else if c == 'Ơ' then ['ơ']
    else if c == 'Ư' then ['ư']
    else if c == '\U{212A}' then ['k']
    else if c == '\U{0130}' then ['i', '\U{0307}']
    else [c]
  }

  /** `name.toLowerCase()`, character by character. */
  function Lower(s: string): (r: string)
    ensures |s| <= |r| <= 2 * |s|
    ensures (forall i :: 0 <= i < |s| ==> Kept(s[i])) ==> r == s
  {
    if |s| == 0 then [] else LowerChar(s[0]) + Lower(s[1..])
  }

  /** `replace(/[^a-zăâđêôơư]/g, '')`. */
  function Clean(s: string): (r: string)
    ensures |r| <= |s|
    ensures forall i :: 0 <= i < |r| ==> Kept(r[i])
  {
    if |s| == 0 then [] else (if Kept(s[0]) then [s[0]] else []) + Clean(s[1..])
  }

  /** The filter drops only ignored characters: each letter it keeps occurs as often as in its input. */
  lemma {:induction false} CleanKeepsLetters(s: string, c: char)
    requires Kept(c)
    ensures multiset(Clean(s))[c] == multiset(s)[c]
  {
    if |s| > 0 {
      assert s == [s[0]] + s[1..];
      CleanKeepsLetters(s[1..], c);
    }
  }

  /** The sum of the letter values (the `for ... of` loop). */
  function Total(s: string): (r: nat)
    ensures r <= 9 * |s|
  {
    if |s| == 0 then 0 else LetterValue(s[0]) + Total(s[1..])
  }

  /** The letter total of a full name, before digit reduction. */
  function NameTotal(name: string): nat {
    Total(Clean(Lower(name)))
  }

  /** One step of the reduction loop, `Math.floor(t / 10) + t % 10`, makes progress and
      keeps the value modulo 9 (because 10 is 1 modulo 9). */
  lemma DigitFold(t: nat)
    requires t > 9
    ensures 0 < t / 10 + t % 10 < t
    ensures (t / 10 + t % 10) % 9 == t % 9
  {
    var q, d := t / 10, t % 10;
    assert t == 9 * q + (q + d);
    ModMultiple(q + d, q);
  }

  /** Adding a multiple of 9 does not change the remainder modulo 9. */
  lemma {:induction false} ModMultiple(x: nat, k: nat)
    ensures (9 * k + x) % 9 == x % 9
    decreases k
  {
    if k > 0 {
      ModMultiple(x, k - 1);
      assert 9 * k + x == 9 * (k - 1) + x + 9;
    }
  }

  /** The `while (total > 9)` loop: fold tens and units until one digit is left. */
  function Reduce(t: nat): (r: nat)
    ensures r <= 9
    ensures r % 9 == t % 9
    ensures r == 0 <==> t == 0
    decreases t
  {
    if t > 9 then
      DigitFold(t);
      Reduce(t / 10 + t % 10)
    else
      t
  }

  /** The digital root, defined without iteration: 0 for 0, otherwise the digit 1..9 that
      is congruent to `t` modulo 9. */
  function DigitalRoot(t: nat): nat {
    if t == 0 then 0 else 1 + (t - 1) % 9
  }

  /** A digit that has the remainder of `t` modulo 9 and is zero only for zero is the
      digital root of `t`. */
  lemma DigitalRootUnique(t: nat, r: nat)
    requires r <= 9
    requires r % 9 == t % 9
    requires r == 0 <==> t == 0
    ensures r == DigitalRoot(t)
  {
    if t > 0 {
      var d := DigitalRoot(t);
      assert t == 9 * ((t - 1) / 9) + d;
      ModMultiple(d, (t - 1) / 9);
    }
  }

  /** The reduction loop computes the digital root. */
  lemma ReduceIsDigitalRoot(t: nat)
    ensures Reduce(t) == DigitalRoot(t)
  {
    DigitalRootUnique(t, Reduce(t));
  }

  /** Letter values are positive, so the total lies between the length and nine times it. */
  lemma {:induction false} TotalBounds(s: string)
    requires forall i :: 0 <= i < |s| ==> Kept(s[i])
    ensures |s| <= Total(s) <= 9 * |s|
    decreases |s|
  {
    if |s| > 0 {
      TotalBounds(s[1..]);
    }
  }

  /** `calculateNameNumber`. */
  function NameNumber(name: string): (r: nat)
    ensures r <= 9
    ensures r % 9 == NameTotal(name) % 9
    ensures r == 0 <==> Clean(Lower(name)) == []
    ensures r == DigitalRoot(NameTotal(name))
  {
    TotalBounds(Clean(Lower(name)));
    ReduceIsDigitalRoot(NameTotal(name));
    Reduce(NameTotal(name))
  }

  /** The imperative shape of `calculateNameNumber`: a summing loop over the cleaned name,
      then the reduction loop. */
  method CalculateNameNumber(name: string) returns (r: nat)
    ensures r == DigitalRoot(NameTotal(name))
    ensures r == 0 <==> Clean(Lower(name)) == []
  {
    var cleanName := Clean(Lower(name));
    var total: nat := 0;
    for i := 0 to |cleanName|
      invariant total == Total(cleanName[..i])
    {
      TotalAppend(cleanName[..i], [cleanName[i]]);
      assert cleanName[..i + 1] == cleanName[..i] + [cleanName[i]];
      total := total + LetterValue(cleanName[i]);
    }
    assert cleanName[..|cleanName|] == cleanName;
    TotalBounds(cleanName);
    ghost var sum := total;
    while total > 9
      invariant total % 9 == sum % 9
      invariant total == 0 <==> sum == 0
      decreases total
    {
      DigitFold(total);
      total := total / 10 + total % 10;
    }
    DigitalRootUnique(sum, total);
    r := total;
  }

  lemma {:induction false} LowerAppend(a: string, b: string)
    ensures Lower(a + b) == Lower(a) + Lower(b)
    decreases |a|
  {
    if |a| > 0 {
      assert (a + b)[1..] == a[1..] + b;
      LowerAppend(a[1..], b);
    } else {
      assert a + b == b;
    }
  }

  lemma {:induction false} CleanAppend(a: string, b: string)
    ensures Clean(a + b) == Clean(a) + Clean(b)
    decreases |a|
  {
    if |a| > 0 {
      assert (a + b)[1..] == a[1..] + b;
      CleanAppend(a[1..], b);
    } else {
      assert a + b == b;
    }
  }

  lemma {:induction false} TotalAppend(a: string, b: string)
    ensures Total(a + b) == Total(a) + Total(b)
    decreases |a|
  {
    if |a| > 0 {
      assert (a + b)[1..] == a[1..] + b;
      TotalAppend(a[1..], b);
    } else {
      assert a + b == b;
    }
  }

  /** The letter total of a concatenation is the sum of the letter totals. */
  lemma NameTotalAppend(a: string, b: string)
    ensures NameTotal(a + b) == NameTotal(a) + NameTotal(b)
  {
    LowerAppend(a, b);
    CleanAppend(Lower(a), Lower(b));
    TotalAppend(Clean(Lower(a)), Clean(Lower(b)));
  }

  /** Lowercasing one character yields characters that lowercase to themselves. */
  lemma LowerCharIdempotent(c: char)
    ensures Lower(LowerChar(c)) == LowerChar(c)
  {
    var l := LowerChar(c);
    if |l| == 1 {
      assert Lower(l) == LowerChar(l[0]) + Lower([]);
    } else {
      assert l == ['i', '\U{0307}'];
      assert Lower(l) == LowerChar('i') + Lower(l[1..]);
      assert Lower(l[1..]) == LowerChar('\U{0307}') + Lower([]);
    }
  }

  /** Lowercasing is idempotent. */
  lemma {:induction false} LowerIdempotent(s: string)
    ensures Lower(Lower(s)) == Lower(s)
    decreases |s|
  {
    if |s| > 0 {
      LowerIdempotent(s[1..]);
      LowerAppend(LowerChar(s[0]), Lower(s[1..]));
      LowerCharIdempotent(s[0]);
    }
  }

  /** Case does not matter: a name and its lowercase have the same name number. */
  lemma CaseInsensitive(name: string)
    ensures NameNumber(Lower(name)) == NameNumber(name)
  {
    LowerIdempotent(name);
  }

  /** A character whose lowercase the filter deletes entirely (a digit, a space, an accented
      vowel such as 'á') can be inserted anywhere without changing the name number. */
  lemma IgnoredCharacter(a: string, b: string, c: char)
    requires Clean(LowerChar(c)) == []
    ensures NameNumber(a + [c] + b) == NameNumber(a + b)
  {
    IgnoredTotal(c);
    NameTotalAppend(a + [c], b);
    NameTotalAppend(a, [c]);
    NameTotalAppend(a, b);
    SameTotalSameNumber(a + [c] + b, a + b);
  }

  /** A character the filter deletes after lowercasing contributes nothing to the total. */
  lemma IgnoredTotal(c: char)
    requires Clean(LowerChar(c)) == []
    ensures NameTotal([c]) == 0
  {
    assert Lower([c]) == LowerChar(c) + Lower([]);
    assert Lower([c]) == LowerChar(c);
    assert Total([]) == 0;
  }

  /** The name number depends on the name only through its letter total. */
  lemma SameTotalSameNumber(x: string, y: string)
    requires NameTotal(x) == NameTotal(y)
    ensures NameNumber(x) == NameNumber(y)
  {
  }

  /** Only the multiset of letters matters: swapping two parts of a name (family name and
      given name, say) leaves the name number unchanged. */
  lemma SwapParts(a: string, b: string)
    ensures NameNumber(a + b) == NameNumber(b + a)
  {
    NameTotalAppend(a, b);
    NameTotalAppend(b, a);
  }
}

=== FILE: sequences.dfy ===
/** `Array.from(new Set(xs))`: duplicates removed, first occurrences kept in order. */
module Sequences {

  /** No value occurs twice. */
  predicate NoDup<T(==)>(s: seq<T>) {
    forall i, j :: 0 <= i < j < |s| ==> s[i] != s[j]
  }

  /** The set of values of a sequence. */
  function Elements<T>(s: seq<T>): set<T> {
    set x | x in s
  }

  /** Inserting the values of `s` one by one into a JavaScript `Set` and reading them back:
      a value already present is skipped, a new one goes to the end. */
  function Dedup<T(==)>(s: seq<T>): (r: seq<T>)
    ensures NoDup(r)
    ensures Elements(r) == Elements(s)
    ensures |r| <= |s|
    ensures |s| > 0 ==> |r| > 0 && r[0] == s[0]
    decreases |s|
  {
    if |s| == 0 then []
    else
      var d := Dedup(s[..|s| - 1]);
      var x := s[|s| - 1];
      assert s == s[..|s| - 1] + [x];
      assert Elements(s) == Elements(s[..|s| - 1]) + {x};
      if x in d then d else d + [x]
  }

  /** Appending one value: it is kept exactly when it is new. */
  lemma DedupSnoc<T>(s: seq<T>, x: T)
    ensures Dedup(s + [x]) == if x in Dedup(s) then Dedup(s) else Dedup(s) + [x]
  {
    assert (s + [x])[..|s + [x]| - 1] == s;
  }

  /** A list that is already duplicate-free passes through unchanged. */
  lemma {:induction false} DedupOfNoDup<T>(s: seq<T>)
    requires NoDup(s)
    ensures Dedup(s) == s
    decreases |s|
  {
    if |s| > 0 {
      var p := s[..|s| - 1];
      assert NoDup(p);
      DedupOfNoDup(p);
      assert s[|s| - 1] !in p;
      assert p + [s[|s| - 1]] == s;
    }
  }

  /** Deduplicating twice is deduplicating once. */
  lemma DedupIdempotent<T>(s: seq<T>)
    ensures Dedup(Dedup(s)) == Dedup(s)
  {
    DedupOfNoDup(Dedup(s));
  }

  /** Values appended later never disturb what was already kept: the deduplicated prefix of
      a list is a prefix of the deduplicated list. */
  lemma {:induction false} DedupPrefix<T>(a: seq<T>, b: seq<T>)
    ensures Dedup(a) <= Dedup(a + b)
    decreases |b|
  {
    if |b| > 0 {
      var b' := b[..|b| - 1];
      DedupPrefix(a, b');
      assert (a + b)[..|a + b| - 1] == a + b';
    } else {
      assert a + b == a;
    }
  }

  /** A duplicate-free list has as many entries as distinct values. */
  lemma {:induction false} NoDupCard<T>(s: seq<T>)
    requires NoDup(s)
    ensures |Elements(s)| == |s|
    decreases |s|
  {
    if |s| > 0 {
      var p := s[..|s| - 1];
      assert NoDup(p);
      NoDupCard(p);
      assert Elements(s) == Elements(p) + {s[|s| - 1]};
      assert s[|s| - 1] !in Elements(p);
    } else {
      assert Elements(s) == {};
    }
  }

  /** A subset is no larger than its superset. */
  lemma SubsetCard<T>(a: set<T>, b: set<T>)
    requires a <= b
    ensures |a| <= |b|
  {
    assert b == a + (b - a);
    assert a * (b - a) == {};
  }

  /** The deduplicated list is at least as long as any set of values the input contains. */
  lemma DedupCoversSet<T>(s: seq<T>, vals: set<T>)
    requires forall v :: v in vals ==> v in s
    ensures |vals| <= |Dedup(s)|
  {
    var d := Dedup(s);
    NoDupCard(d);
    assert vals <= Elements(d);
    SubsetCard(vals, Elements(d));
  }
}

=== FILE: types.dfy ===
/** The request and result records exchanged by the form, the route and the calculator. */
module Types {
  import opened Wrappers

  datatype Gender = Male | Female

  /** A calendar date as the `Date` getters report it: full year, `getMonth()` (0 for
      January) and `getDate()` (1-based day of the month). */
  datatype Date = Date(year: int, month: int, day: int)

  /** A date the `Date` constructor could have produced from a well-formed string. */
  predicate ValidDate(d: Date) {
    0 <= d.month < 12 && 1 <= d.day <= 31
  }

  /** The instant `new Date()` read from the clock; it is only carried along. */
  datatype Timestamp = Timestamp(millis: int)

  datatype LuckyNumberRequest = LuckyNumberRequest(
    fullName: string,
    birthDate: string,
    gender: Gender,
    age: int,
    houseDirection: Option<string>,
    profession: Option<string>)

  datatype ElementInfo = ElementInfo(element: string, description: string)
  datatype StemInfo = StemInfo(stem: string, description: string)
  datatype BranchInfo = BranchInfo(branch: string, description: string)

  datatype LuckyNumberResult = LuckyNumberResult(
    id: string,
    userId: Option<string>,
    request: LuckyNumberRequest,
    luckyNumbers: seq<int>,
    luckyDays: seq<string>,
    luckyHours: seq<string>,
    luckyColors: seq<string>,
    fengShuiAdvice: string,
    fiveElements: ElementInfo,
    heavenlyStems: StemInfo,
    earthlyBranches: BranchInfo,
    createdAt: Timestamp)
}

=== FILE: wrappers.dfy ===
/** The `undefined`-or-value results of JavaScript object and array lookups. */
module Wrappers {

  /** `None` stands for JavaScript's `undefined`. */
  datatype Option<+T> = None | Some(value: T) {

    /** The JavaScript `x || fallback` idiom on a lookup that yields an array, object or
        non-empty string: those are always truthy, so only `undefined` takes the fallback. */
    function GetOr(fallback: T): T {
      match this
      case Some(v) => v
      case None => fallback
    }
  }
}

=== FILE: year_cycles.dfy ===
/** The year-indexed lookups: the five elements by final digit of the birth year, and the
    heavenly stem and earthly branch of the sexagenary cycle. */
module YearCycles {
  import opened Wrappers
  import opened JsNumber

  datatype Element = Kim | Thuy | Moc | Hoa | Tho

  /** The element's name as the tables spell it. */
  function ElementName(e: Element): string {
    match e
    case Kim => "Kim"
    case Thuy => "Thủy"
    case Moc => "Mộc"
    case Hoa => "Hỏa"
    case Tho => "Thổ"
  }

  /** `fiveElementsByYear`: final digit of the year to element. */
  const ElementsByYear: map<int, Element> :=
    map[0 := Kim, 1 := Kim, 2 := Thuy, 3 := Thuy, 4 := Moc,
        5 := Moc, 6 := Hoa, 7 := Hoa, 8 := Tho, 9 := Tho]

  /** The five elements in the order the table gives them to consecutive pairs of digits. */
  const ElementCycle: seq<Element> := [Kim, Thuy, Moc, Hoa, Tho]

  const HeavenlyStems: seq<string> :=
    ["Giáp", "Ất", "Bính", "Đinh", "Mậu", "Kỷ", "Canh", "Tân", "Nhâm", "Quý"]

  const EarthlyBranches: seq<string> :=
    ["Tý", "Sửu", "Dần", "Mão", "Thìn", "Tỵ", "Ngọ", "Mùi", "Thân", "Dậu", "Tuất", "Hợi"]

  /** The traditional element of each heavenly stem: Giáp and Ất are wood, Bính and Đinh
      fire, Mậu and Kỷ earth, Canh and Tân metal, Nhâm and Quý water. */
  const StemElements: seq<Element> := [Moc, Moc, Hoa, Hoa, Tho, Tho, Kim, Kim, Thuy, Thuy]

  /** `fiveElementsByYear[birthYear % 10]` with JavaScript's `%`. A negative year has a
      negative final digit and no entry (`undefined`), except a multiple of ten, whose
      remainder -0 reads the entry for 0. */
  function ElementOfYear(year: int): (r: Option<Element>)
    ensures r.Some? <==> year >= 0 || year % 10 == 0
    ensures r.Some? ==> r == Some(ElementCycle[(year % 10) / 2])
  {
    var d := JsRem(year, 10);
    if d in ElementsByYear then Some(ElementsByYear[d]) else None
  }

  /** `(birthYear - 4) % 10` with JavaScript's `%`. */
  function StemIndex(year: int): (i: int)
    ensures -10 < i < 10
    ensures year >= 4 ==> i == (year - 4) % 10
  {
    JsRem(year - 4, 10)
  }

  /** `(birthYear - 4) % 12` with JavaScript's `%`. */
  function BranchIndex(year: int): (i: int)
    ensures -12 < i < 12
    ensures year >= 4 ==> i == (year - 4) % 12
  {
    JsRem(year - 4, 12)
  }

  /** `heavenlyStems[stemIndex]`; a negative index reads `undefined`. */
  function StemOf(year: int): (r: Option<string>)
    ensures r.Some? <==> year >= 4 || (year - 4) % 10 == 0
    ensures r.Some? ==> r.value == HeavenlyStems[(year - 4) % 10]
  {
    var i := StemIndex(year);
    if 0 <= i < |HeavenlyStems| then Some(HeavenlyStems[i]) else None
  }

  /** `earthlyBranches[branchIndex]`; a negative index reads `undefined`. */
  function BranchOf(year: int): (r: Option<string>)
    ensures r.Some? <==> year >= 4 || (year - 4) % 12 == 0
    ensures r.Some? ==> r.value == EarthlyBranches[(year - 4) % 12]
  {
    var i := BranchIndex(year);
    if 0 <= i < |EarthlyBranches| then Some(EarthlyBranches[i]) else None
  }

  /** For years from 0 on, the element repeats every ten years. */
  lemma ElementPeriodic(year: int)
    requires year >= 0
    ensures ElementOfYear(year + 10) == ElementOfYear(year)
  {
    assert (year + 10) % 10 == year % 10;
  }

  /** The pairs of final digits {0,1}, {2,3}, {4,5}, {6,7}, {8,9} give Kim, Thủy, Mộc,
      Hỏa, Thổ. */
  lemma ElementByDigitPairs(year: int)
    requires year >= 0
    ensures year % 10 in {0, 1} <==> ElementOfYear(year) == Some(Kim)
    ensures year % 10 in {2, 3} <==> ElementOfYear(year) == Some(Thuy)
    ensures year % 10 in {4, 5} <==> ElementOfYear(year) == Some(Moc)
    ensures year % 10 in {6, 7} <==> ElementOfYear(year) == Some(Hoa)
    ensures year % 10 in {8, 9} <==> ElementOfYear(year) == Some(Tho)
  {
  }

  /** For years from 4 on, the stem repeats every ten years. */
  lemma StemPeriodic(year: int)
    requires year >= 4
    ensures StemIndex(year + 10) == StemIndex(year)
    ensures StemOf(year + 10) == StemOf(year)
  {
    assert (year + 10 - 4) % 10 == (year - 4) % 10;
  }

  /** For years from 4 on, the branch repeats every twelve years. */
  lemma BranchPeriodic(year: int)
    requires year >= 4
    ensures BranchIndex(year + 12) == BranchIndex(year)
    ensures BranchOf(year + 12) == BranchOf(year)
  {
    assert (year + 12 - 4) % 12 == (year - 4) % 12;
  }

  /** The stem and the branch advance together, so their indices always have the same
      parity, negative indices included: only 60 of the 120 stem-branch pairs ever occur. */
  lemma StemBranchParity(year: int)
    ensures StemIndex(year) % 2 == BranchIndex(year) % 2
  {
    var n := year - 4;
    var m := if n >= 0 then n else -n;
    var q10, q12 := m / 10, m / 12;
    var s, b := m % 10, m % 12;
    assert m == 10 * q10 + s;
    assert m == 12 * q12 + b;
    if n >= 0 {
      assert StemIndex(year) == s && BranchIndex(year) == b;
      SameParity(s, b, 6 * q12 - 5 * q10);
    } else {
      assert StemIndex(year) == -s && BranchIndex(year) == -b;
      SameParity(-s, -b, 5 * q10 - 6 * q12);
    }
  }

  /** Two numbers that differ by an even amount have the same parity. */
  lemma SameParity(s: int, b: int, k: int)
    requires s == b + 2 * k
    ensures s % 2 == b % 2
  {
  }

  /** The stem-branch pair repeats every sixty years (the sexagenary cycle). */
  lemma SexagenaryPeriod(year: int)
    requires year >= 4
    ensures StemOf(year + 60) == StemOf(year)
    ensures BranchOf(year + 60) == BranchOf(year)
  {
    assert (year + 60 - 4) % 10 == (year - 4) % 10;
    assert (year + 60 - 4) % 12 == (year - 4) % 12;
  }

  /** The element the final-digit table gives is the traditional element of the year's
      heavenly stem. */
  lemma ElementIsStemElement(year: int)
    requires year >= 4
    ensures ElementOfYear(year) == Some(StemElements[StemIndex(year)])
  {
    var d := year % 10;
    assert year == 10 * (year / 10) + d;
    assert StemIndex(year) == (d + 6) % 10;
    assert ElementOfYear(year) == Some(ElementCycle[d / 2]);
  }

  /** Before year 4 the reading is never complete: the element, the stem or the branch
      reads `undefined`. */
  lemma BelowFourIncomplete(year: int)
    requires year < 4
    ensures ElementOfYear(year).None? || StemOf(year).None? || BranchOf(year).None?
  {
  }

  /** Every year-indexed lookup repeats after 300 years, a common multiple of 10 and 12. */
  lemma YearLookupsRepeat(year: int)
    requires year >= 4
    ensures ElementOfYear(year + 300) == ElementOfYear(year)
    ensures StemOf(year + 300) == StemOf(year)
    ensures BranchOf(year + 300) == BranchOf(year)
  {
    assert (year + 300) % 10 == year % 10;
    assert (year + 300 - 4) % 10 == (year - 4) % 10;
    assert (year + 300 - 4) % 12 == (year - 4) % 12;
  }

  /** 1984 is a Giáp Tý year, the start of a sexagenary cycle; 1990 is Canh Ngọ, a Kim year. */
  lemma Anchors()
    ensures StemOf(1984) == Some("Giáp") && BranchOf(1984) == Some("Tý")
    ensures ElementOfYear(1990) == Some(Kim)
    ensures StemOf(1990) == Some("Canh") && BranchOf(1990) == Some("Ngọ")
  {
  }
}
